=== FILE: README.md ===
# slacker: command selection and dispatch, in Dafny

A model of the command registry, message dispatch, addressing filter, event
loop and help rendering in `slacker.go`, the core of a Slack bot framework.
A bot (`Slacker`) holds an ordered list of commands (`BotCommand`: usage,
description, handler) and some optional callbacks. `Listen` puts a "help"
command in front of the list, then reads the inbound event stream. A
message that mentions the bot or arrives on a direct channel is handed to
`handleMessage`. That runs the first command, in registration order, whose
matcher accepts the message text or the first attachment's pretext. If no
command matches, it runs the default message handler.

Modules:

- `Wrappers` (wrappers.dfy): `Option` and `Eval`. `Eval` is a value, or the
  fault that an out-of-range slice index causes in Go.
- `Strings` (strings.dfy): `strings.Contains` and `strings.HasPrefix`, each
  proved against a reference definition.
- `Bot` (bot.dfy): the `Slacker` record, the handler setters, `Command` and
  `prependHelpHandle`.
- `Addressing` (addressing.dfy): message events, `isBotMentioned`,
  `isDirectMessage` and the unused `isFromBot`.
- `Dispatch` (dispatch.dfy): `handleMessage`, as a search function and as the
  source's loop.
- `HelpText` (help.dfy): `defaultHelp`.
- `EventLoop` (listen.dfy): `Listen`. The loop is a fold over a finite event
  sequence. It yields a trace of the work it hands off, plus its return value.

Modelling choices:

- `BotCommand.Match` and `BotCommand.Tokenize` live in a file that is not
  part of this model. They are parameters of type `Matcher` and `Tokenizer`.
  They can be any total functions, so every dispatch property here holds for
  every matcher.
- Handlers are function values in the source. Here they are opaque
  identities (`Handler`). `BuiltinHelp` stands for the built-in help renderer.
- Each `go f(...)` becomes an `Action` in the loop's trace: `SpawnInit`,
  `SpawnHandleMessage`, `SpawnError` or `SpawnDefaultEvent`.
  `SpawnHandleMessage` carries the `Execution` that `handleMessage` decides.
  The model assumes the bot is not changed once `Listen` starts, and decides
  each dispatch against the bot as it is when the goroutine is spawned.
- `Listen` changes the bot in place (slacker.go:81): `ListenLoop` returns the
  prepared bot, so a later `Listen` starts from it, and
  `RelistenStacksHelp` shows that help is then listed twice.
- The bot's own user id (`RTM.GetInfo().User.ID`) is a parameter, `me`.
- The first attachment's pretext is an `Option`: it is absent when a message
  has no attachments. Then the pretext is neither searched for a mention nor
  matched against commands. The source indexes `Attachments[0]` without a
  check, and that faults; see "## Findings".
- The `isFromBot` filter is commented out (slacker.go:94-97), so messages the
  bot itself wrote are still dispatched; `isFromBot` is a standalone predicate
  here, and `OwnDirectMessageDispatched` shows the loop does not apply it.
  The mention is searched in the text and in the first attachment's pretext
  (slacker.go:136).
- The setters take an `Option<Handler>`: `None` is Go's nil, which clears the
  callback; after `Help(None)`, `prependHelpHandle` installs the built-in renderer.

## Model

| member | source | states |
|---|---|---|
| Strings.ContainsIsOccurs | slacker.go:136 | the left-to-right substring scan returns true exactly when the needle occurs at some position of the haystack |
| Strings.HasPrefix | slacker.go:140 | true exactly when the string is the prefix followed by some rest |
| Bot.Init | slacker.go:49-52 | the connect callback becomes the given handler, or is cleared by nil, and nothing else changes |
| Bot.Err | slacker.go:54-57 | the error callback becomes the given handler, or is cleared by nil, and nothing else changes |
| Bot.DefaultCommand | slacker.go:59-62 | the default message handler becomes the given handler, or is cleared by nil, and nothing else changes |
| Bot.DefaultEvent | slacker.go:64-67 | the default event callback becomes the given handler, or is cleared by nil, and nothing else changes |
| Bot.Help | slacker.go:69-72 | the help handler becomes the given one (or nil) and nothing else changes; after prepending, the help command runs that handler, or the built-in renderer when it was nil |
| Bot.Command | slacker.go:74-77 | the list grows by one; the old commands keep their positions and order; the new command is last; no callback changes |
| Bot.PrependHelpHandle | slacker.go:183-188 | the list grows by one; index 0 is the command with usage "help", description "help" and the help handler; indices 1.. are the old list in order; the help handler is kept if set and becomes the built-in renderer otherwise; nothing else changes |
| Bot.FreshBotCommands | slacker.go:183-188 | for a bot fresh from NewClient with no help handler, prepending after any registrations gives exactly the built-in help command followed by those registrations |
| Bot.HelpFirstAfterRegistrations | slacker.go:183-188 | after any sequence of registrations, prepending puts help at index 0 and then every registered command in registration order |
| Addressing.Mention | slacker.go:20 | the mention of an id is the id wrapped in "<@" and ">" |
| Addressing.FirstPretext | slacker.go:136 | the pretext is present exactly when there is an attachment, and it is the first attachment's pretext |
| Addressing.IsBotMentioned | slacker.go:134-137 | true exactly when "<@id>" occurs in the text, or in the first attachment's pretext when there is one |
| Addressing.IsDirectMessage | slacker.go:139-141 | true exactly when the channel id is non-empty and starts with 'D' |
| Addressing.IsFromBot | slacker.go:129-132 | an empty user or the bot's own user makes it true; when false, there is no bot id and the user is neither USLACKBOT nor the bot |
| Addressing.MentionAsWrittenFaults | slacker.go:136 | as written, a direct message "hello" with no attachment faults on the attachment index, though the filter would admit it |
| Addressing.MentionAsWrittenAgrees | slacker.go:134-137 | the as-written check faults exactly when the text lacks the mention and there is no attachment; otherwise it equals IsBotMentioned |
| Dispatch.FirstMatch | slacker.go:147-160 | returns an index exactly when some command at or after the start matches the text or pretext; that index matches and no earlier index does |
| Dispatch.HandleMessage | slacker.go:143-165 | a command runs exactly when some command matches. It is the lowest-index match, with its own handler. It gets the text parameters when the text matched, else the pretext parameters. Otherwise the default handler runs with an empty parameter set exactly when it is set, and nothing runs when it is not |
| Dispatch.HandleMessageLoop | slacker.go:143-164 | the source's loop over commands decides the same execution as HandleMessage |
| Dispatch.EarlierCommandShadowsLater | slacker.go:147-160 | when an earlier command matches, a command registered after it is never executed |
| Dispatch.RegisteringKeepsWinner | slacker.go:147-160 | registering one more command does not change the execution of a message that already ran a command |
| Dispatch.HelpMatchedFirst | slacker.go:187 | after prepending, a message the help command accepts runs the help handler at index 0 |
| Dispatch.MentionedMessageFaultsInDispatch | slacker.go:149 | as written, the channel message "<@U0BOT> help" with no attachment passes the mention check and then faults in handleMessage |
| Dispatch.HandleMessageAsWrittenFaults | slacker.go:149 | as written, after prepending help, every message without attachments faults, whatever the matcher |
| Dispatch.HandleMessageAsWrittenAgrees | slacker.go:147-164 | when the message has an attachment, the as-written loop decides exactly what HandleMessage decides |
| HelpText.RenderTokensLoop | slacker.go:171-177 | the inner loop's string is the concatenation of each token's rendering, in token order |
| HelpText.DefaultHelp | slacker.go:167-181 | the accumulated help message is one line per command, in list order |
| HelpText.HelpLineCount | slacker.go:167-181 | with no newline inside words or descriptions, the message has exactly as many newlines as there are commands |
| HelpText.HelpLines | slacker.go:167-181 | read back line by line, line i of the message is command i's rendered tokens, then "- " and its italic description |
| HelpText.HelpAppend | slacker.go:169-179 | the help for two lists of commands in sequence is the help for the first followed by the help for the second |
| HelpText.RelistenStacksHelp | slacker.go:81 | a second Listen on the same bot prepends help again: indices 0 and 1 both hold the help command, and the help message opens with two help lines |
| HelpText.HelpAfterPrepend | slacker.go:183-188 | rendered after prepending, the message opens with the help command's own line, then the lines of the earlier registrations |
| EventLoop.StepEvent | slacker.go:86-120 | a message hands off one dispatch exactly when it mentions the bot or is direct. Connected, error and other events hand off their callback exactly when it is set. An authentication failure stops with "invalid token". At most one hand-off per event |
| EventLoop.ListenLoop | slacker.go:80-122 | the loop with early return produces the trace and error of prepending help and folding StepEvent over the events; it also returns the bot as Listen leaves it, with help at index 0 followed by the old commands |
| EventLoop.RunErrorIffInvalidAuth | slacker.go:112-122 | the loop returns an error exactly when the stream holds an authentication failure; the error is "invalid token"; otherwise it returns nil |
| EventLoop.RunStopsAtInvalidAuth | slacker.go:112-113 | events after an authentication failure change neither the trace nor the error |
| EventLoop.RunAppend | slacker.go:85-121 | with no authentication failure in the first part, the trace of a split stream is the two traces in order |
| EventLoop.UnaddressedMessageIgnored | slacker.go:99-102 | a message that neither mentions the bot nor is direct can be removed from the stream without changing the loop's result |
| EventLoop.DispatchedMessagesAreAddressed | slacker.go:93-104 | every handed-off message passed the addressing filter and carries HandleMessage's decision for it |
| EventLoop.OwnDirectMessageDispatched | slacker.go:94-97 | a direct message written by the bot itself is from a bot, yet the loop still dispatches it |

## Left out

- The tokenizer and matcher (`BotCommand.Match`, `BotCommand.Tokenize`, `NewBotCommand`): the file that defines them is not part of this model. They are abstract parameters, and nothing about arity or literal comparison is assumed.
- The Slack transport: `NewClient`, `RTM.ManageConnection`, `sendMessage` and `RTM.GetInfo`. These are foreign I/O. The event stream is a finite sequence and the bot's user id is a parameter.
- Changes to the bot after `Listen` starts: the source takes no lock, and each `handleMessage` goroutine reads the commands and the default handler when it runs (slacker.go:104, 147, 162). The model decides a spawned dispatch against the bot as it was at spawn time.
- Concurrency: each goroutine is recorded as an action in the trace. Nothing models interleavings or handler execution.
- `fmt.Printf` logging (slacker.go:100, 103): it has no effect on behaviour.
- `context.Background()`, `NewRequest`, `NewResponse` and `Reply`: requests and response writers are not modelled. An execution records only the handler and the parameters. `HelpText.DefaultHelp` returns the message that `defaultHelp` would reply with.
- The panic itself: the as-written members return `IndexOutOfRange` in place of crashing the process.
- Addressing.IsFromBot: its contract states the implications above rather than a full equivalence. The check is commented out of the loop, so nothing else depends on it.
- HelpText.HelpLineCount, HelpText.HelpLines: these assume that token words and descriptions contain no newline. The source does not rule that out, and then the line structure does not hold.

## Findings

| source | as written | input that shows it | evidently intended | confidence | as-written member | corrected member |
|---|---|---|---|---|---|---|
| slacker.go:136 | `isBotMentioned` reads `event.Attachments[0].Pretext` whenever the text lacks the mention, without checking that an attachment exists | a direct message "hello" on channel D024BE91L with no attachments | a message without attachments has no pretext to search, so the filter decides on the text and the channel | high; not executed | Addressing.MentionAsWrittenFaults | Addressing.IsBotMentioned |
| slacker.go:149 | `handleMessage` reads `event.Attachments[0].Pretext` for the first command it tries, and after `prependHelpHandle` there always is one | the channel message "<@U0BOT> help" on C024BE91L with no attachments, to bot U0BOT: it passes the mention check at :136 on its text, then faults here | with no attachment, only the text is matched | high; not executed | Dispatch.MentionedMessageFaultsInDispatch | Dispatch.HandleMessage |

=== FILE: addressing.dfy ===
/** Inbound message events and the addressing filter that decides whether
    the bot is being spoken to: `isBotMentioned`, `isDirectMessage`, and the
    unused `isFromBot`. */
module Addressing {
  import opened Wrappers
  import opened Strings

  /** A message attachment; only its pretext matters to the dispatcher. */
  datatype Attachment = Attachment(pretext: string)

  /** The fields of a message event the dispatcher reads. `botId` is the
      event's own bot identifier, not the identity of this bot. */
  datatype MessageEvent = MessageEvent(
    text: string,
    channel: string,
    user: string,
    botId: string,
    attachments: seq<Attachment>)

  /** The channel-id prefix of a direct (one-to-one) conversation. */
  const DirectChannelMarker: string := "D"

  /** The user id the platform gives its own bot. */
  const SlackBotUser: string := "USLACKBOT"

  /** How the platform writes a mention of user `id` inside message text. */
  function Mention(id: string): (r: string)
    ensures |r| == |id| + 3 && r[..2] == "<@" && r[|r| - 1] == '>'
    ensures r[2..|r| - 1] == id
  {
    "<@" + id + ">"
  }

  /** The pretext of the first attachment, absent when there are no attachments. */
  function FirstPretext(e: MessageEvent): (r: Option<string>)
    ensures r.Some? <==> |e.attachments| > 0
    ensures r.Some? ==> r.value == e.attachments[0].pretext
  {
    if |e.attachments| == 0 then None else Some(e.attachments[0].pretext)
  }

  /** The bot with user id `me` is mentioned in the text or in the first attachment's pretext. */
  function IsBotMentioned(e: MessageEvent, me: string): (r: bool)
    ensures r <==> Occurs(e.text, Mention(me))
                   || (|e.attachments| > 0 && Occurs(e.attachments[0].pretext, Mention(me)))
  {
    ContainsIsOccurs(e.text, Mention(me));
    match FirstPretext(e)
    case None => Contains(e.text, Mention(me))
    case Some(p) =>
      ContainsIsOccurs(p, Mention(me));
      Contains(e.text, Mention(me)) || Contains(p, Mention(me))
  }

  /** The message arrived on a direct channel: its id starts with `D`. */
  function IsDirectMessage(e: MessageEvent): (r: bool)
    ensures r <==> |e.channel| > 0 && e.channel[0] == 'D'
  {
    HasPrefix(e.channel, DirectChannelMarker)
  }

  /** The addressing filter of the event loop: mentioned, or on a direct channel. */
  predicate IsAddressed(e: MessageEvent, me: string) {
    IsBotMentioned(e, me) || IsDirectMessage(e)
  }

  /** The message was written by a bot: no user, the platform's own bot user,
      this bot itself, or a message carrying a bot id. */
  function IsFromBot(e: MessageEvent, me: string): (r: bool)
    ensures |e.user| == 0 ==> r
    ensures e.user == me ==> r
    ensures !r ==> |e.botId| == 0 && e.user !in {SlackBotUser, me}
  {
    |e.user| == 0 || e.user == SlackBotUser || e.user == me || |e.botId| > 0
  }

  /** `isBotMentioned` as written: it reads the first attachment's pretext
      without checking that an attachment exists, whenever the text alone
      does not mention the bot. */
  function IsBotMentionedAsWritten(e: MessageEvent, me: string): (r: Eval<bool>)
  {
    if Contains(e.text, Mention(me)) then Value(true)
    else if |e.attachments| == 0 then IndexOutOfRange
    else Value(Contains(e.attachments[0].pretext, Mention(me)))
  }

  /** The discrepancy: a plain message with no attachment that does not
      mention the bot, even one on a direct channel, faults as written. */
  lemma MentionAsWrittenFaults()
    ensures var e := MessageEvent("hello", "D024BE91L", "U2147483697", "", []);
      && IsBotMentionedAsWritten(e, "U0BOT") == IndexOutOfRange
      && IsDirectMessage(e) && IsAddressed(e, "U0BOT")
  {
  }

  /** Wherever the code as written does not fault, it agrees with `IsBotMentioned`;
      it faults exactly when the text lacks the mention and there is no attachment. */
  lemma MentionAsWrittenAgrees(e: MessageEvent, me: string)
    ensures IsBotMentionedAsWritten(e, me) == IndexOutOfRange
            <==> !Occurs(e.text, Mention(me)) && |e.attachments| == 0
    ensures IsBotMentionedAsWritten(e, me).Value?
            ==> IsBotMentionedAsWritten(e, me).value == IsBotMentioned(e, me)
  {
    ContainsIsOccurs(e.text, Mention(me));
    if |e.attachments| > 0 {
      ContainsIsOccurs(e.attachments[0].pretext, Mention(me));
    }
  }
}

=== FILE: bot.dfy ===
/** The bot's configuration and its command registry: the `Slacker` record,
    `BotCommand`, the handler setters, `Command` and `prependHelpHandle`. */
module Bot {
  import opened Wrappers

  /** A parameter set: parameter name to the word it captured. */
  type Params = map<string, string>

  /** One segment of a command's usage pattern. */
  datatype Token = Token(word: string, isParameter: bool)

  /** A handler is a function value in the source; here it is an opaque
      identity. `BuiltinHelp` is the built-in help renderer. */
  datatype Handler = Custom(id: nat) | BuiltinHelp

  /** A registered command. Its token sequence is derived from the usage
      by code that is not part of this model (see `Tokenizer`). */
  datatype BotCommand = BotCommand(usage: string, description: string, handler: Handler)

  /** What `BotCommand.Match` returns: the captured parameters and whether the text matched. */
  datatype MatchOutcome = MatchOutcome(params: Params, matched: bool)

  /** `BotCommand.Match`, kept abstract: any total function of command and text. */
  type Matcher = (BotCommand, string) -> MatchOutcome

  /** `BotCommand.Tokenize`, kept abstract. */
  type Tokenizer = BotCommand -> seq<Token>

  /** The bot: its ordered commands and its optional callbacks. */
  datatype Slacker = Slacker(
    commands: seq<BotCommand>,
    initHandler: Option<Handler>,
    errorHandler: Option<Handler>,
    helpHandler: Option<Handler>,
    defaultMessageHandler: Option<Handler>,
    defaultEventHandler: Option<Handler>)

  /** The keyword, and the description, of the synthesized help command. */
  const HelpCommand: string := "help"

  /** A bot as `NewClient` leaves it: no commands, no callbacks. */
  const NewSlacker: Slacker := Slacker([], None, None, None, None, None)

  /** Sets the callback run when the bot connects (`None`, Go's nil, clears it); nothing else changes. */
  function Init(s: Slacker, h: Option<Handler>): (r: Slacker)
    ensures r.initHandler == h && r.(initHandler := s.initHandler) == s
  {
    s.(initHandler := h)
  }

  /** Sets the callback run on a transport error (`None` clears it); nothing else changes. */
  function Err(s: Slacker, h: Option<Handler>): (r: Slacker)
    ensures r.errorHandler == h && r.(errorHandler := s.errorHandler) == s
  {
    s.(errorHandler := h)
  }

  /** Sets the handler for messages no command matches (`None` clears it); nothing else changes. */
  function DefaultCommand(s: Slacker, h: Option<Handler>): (r: Slacker)
    ensures r.defaultMessageHandler == h && r.(defaultMessageHandler := s.defaultMessageHandler) == s
  {
    s.(defaultMessageHandler := h)
  }

  /** Sets the callback for events of any other kind (`None` clears it); nothing else changes. */
  function DefaultEvent(s: Slacker, h: Option<Handler>): (r: Slacker)
    ensures r.defaultEventHandler == h && r.(defaultEventHandler := s.defaultEventHandler) == s
  {
    s.(defaultEventHandler := h)
  }

  /** Sets the help handler, which `PrependHelpHandle` then keeps; with `None` it
      installs the built-in renderer instead. Nothing else changes. */
  function Help(s: Slacker, h: Option<Handler>): (r: Slacker)
    ensures r.helpHandler == h && r.(helpHandler := s.helpHandler) == s
    ensures h.Some? ==> PrependHelpHandle(r).commands[0].handler == h.value
    ensures h.None? ==> PrependHelpHandle(r).commands[0].handler == BuiltinHelp
  {
    s.(helpHandler := h)
  }

  /** Registers a command after all existing ones; nothing else changes. */
  function Command(s: Slacker, usage: string, description: string, handler: Handler): (r: Slacker)
    ensures |r.commands| == |s.commands| + 1
    ensures r.commands[..|s.commands|] == s.commands
    ensures r.commands[|s.commands|] == BotCommand(usage, description, handler)
    ensures r.(commands := s.commands) == s
  {
    s.(commands := s.commands + [BotCommand(usage, description, handler)])
  }

  /** The help command as `prependHelpHandle` builds it for a given help handler. */
  function HelpEntry(h: Handler): BotCommand {
    BotCommand(HelpCommand, HelpCommand, h)
  }

  /** Installs the built-in help renderer when no help handler was set, then
      puts the help command in front of every registered command. */
  function PrependHelpHandle(s: Slacker): (r: Slacker)
    ensures |r.commands| == |s.commands| + 1
    ensures r.commands[0].usage == "help" && r.commands[0].description == "help"
    ensures r.helpHandler.Some? && r.commands[0].handler == r.helpHandler.value
    ensures r.commands[1..] == s.commands
    ensures s.helpHandler.Some? ==> r.helpHandler == s.helpHandler
    ensures s.helpHandler.None? ==> r.helpHandler == Some(BuiltinHelp)
    ensures r.(commands := s.commands, helpHandler := s.helpHandler) == s
  {
    var h := s.helpHandler.GetOr(BuiltinHelp);
    s.(helpHandler := Some(h), commands := [HelpEntry(h)] + s.commands)
  }

  /** However many commands were registered first, and in whatever order,
      the help command ends up at index 0 and the registrations follow it in order. */
  lemma {:induction false} HelpFirstAfterRegistrations(s: Slacker, regs: seq<BotCommand>)
    ensures var r := PrependHelpHandle(Register(s, regs));
      && r.commands[0] == HelpEntry(r.helpHandler.value)
      && r.commands[1..] == s.commands + regs
    decreases |regs|
  {
    if |regs| > 0 {
      var last := regs[|regs| - 1];
      HelpFirstAfterRegistrations(s, regs[..|regs| - 1]);
      assert regs[..|regs| - 1] + [last] == regs;
    }
  }

  /** A bot fresh from `NewClient`, given any registrations and no help
      handler, lists the built-in help command and then exactly those
      registrations. */
  lemma FreshBotCommands(regs: seq<BotCommand>)
    ensures PrependHelpHandle(Register(NewSlacker, regs)).commands == [HelpEntry(BuiltinHelp)] + regs
  {
  }

  /** `Command` applied to each entry of `regs`, in order. */
  function Register(s: Slacker, regs: seq<BotCommand>): (r: Slacker)
    decreases |regs|
  {
    if |regs| == 0 then s
    else
      var last := regs[|regs| - 1];
      Command(Register(s, regs[..|regs| - 1]), last.usage, last.description, last.handler)
  }
}

=== FILE: dispatch.dfy ===
/** Message dispatch (`handleMessage`): the first registered command whose
    matcher accepts the text, or else the first attachment's pretext, runs
    once; otherwise the default message handler runs with no parameters. */
module Dispatch {
  import opened Wrappers
  import opened Bot
  import opened Addressing

  /** Which of the two candidate texts a command matched. */
  datatype Source = Text | Pretext

  /** The single handler invocation a message leads to, if any. */
  datatype Execution =
    | Execute(index: nat, handler: Handler, params: Params, source: Source)
    | RunDefault(handler: Handler, params: Params)
    | Dropped

  /** `cmd` accepts the text, or the pretext when there is one. */
  predicate CommandMatches(m: Matcher, cmd: BotCommand, text: string, pretext: Option<string>) {
    m(cmd, text).matched || (pretext.Some? && m(cmd, pretext.value).matched)
  }

  /** Some command at index `from` or later matches. */
  ghost predicate AnyMatchFrom(m: Matcher, cmds: seq<BotCommand>, text: string, pretext: Option<string>, from: nat) {
    exists j :: from <= j < |cmds| && CommandMatches(m, cmds[j], text, pretext)
  }

  /** The lowest index at or after `from` whose command matches. */
  function FirstMatch(m: Matcher, cmds: seq<BotCommand>, text: string, pretext: Option<string>, from: nat): (r: Option<nat>)
    requires from <= |cmds|
    ensures r.Some? <==> AnyMatchFrom(m, cmds, text, pretext, from)
    ensures r.Some? ==> from <= r.value < |cmds| && CommandMatches(m, cmds[r.value], text, pretext)
    ensures r.Some? ==> forall j :: from <= j < r.value ==> !CommandMatches(m, cmds[j], text, pretext)
    decreases |cmds| - from
  {
    if from == |cmds| then None
    else if CommandMatches(m, cmds[from], text, pretext) then Some(from)
    else FirstMatch(m, cmds, text, pretext, from + 1)
  }

  /** The invocation for command `i`, carrying the text parameters when the
      text matched and the pretext parameters otherwise. */
  function ExecuteCommand(m: Matcher, cmds: seq<BotCommand>, i: nat, text: string, pretext: Option<string>): Execution
    requires i < |cmds| && CommandMatches(m, cmds[i], text, pretext)
  {
    var textMatch := m(cmds[i], text);
    if textMatch.matched then Execute(i, cmds[i].handler, textMatch.params, Text)
    else Execute(i, cmds[i].handler, m(cmds[i], pretext.value).params, Pretext)
  }

  /** What `handleMessage` runs for event `e` on bot `s`. */
  function HandleMessage(m: Matcher, s: Slacker, e: MessageEvent): (r: Execution)
    ensures var cmds, pre := s.commands, FirstPretext(e);
      && (r.Execute? <==> AnyMatchFrom(m, cmds, e.text, pre, 0))
      && (r.Execute? ==>
            && r.index < |cmds|
            && CommandMatches(m, cmds[r.index], e.text, pre)
            && (forall j :: 0 <= j < r.index ==> !CommandMatches(m, cmds[j], e.text, pre))
            && r.handler == cmds[r.index].handler
            && (m(cmds[r.index], e.text).matched ==>
                  r.source == Text && r.params == m(cmds[r.index], e.text).params)
            && (!m(cmds[r.index], e.text).matched ==>
                  r.source == Pretext && r.params == m(cmds[r.index], pre.value).params))
      && (r.RunDefault? <==> !AnyMatchFrom(m, cmds, e.text, pre, 0) && s.defaultMessageHandler.Some?)
      && (r.RunDefault? ==> r.handler == s.defaultMessageHandler.value && r.params == map[])
  {
    HandleMessageFromIndex(m, s, e, 0)
  }

  /** `handleMessage` as the source's loop: try each command in order and
      stop at the first that matches the text or the pretext. */
  method HandleMessageLoop(m: Matcher, s: Slacker, e: MessageEvent) returns (r: Execution)
    ensures r == HandleMessage(m, s, e)
  {
    var pre := FirstPretext(e);
    var i := 0;
    while i < |s.commands|
      invariant 0 <= i <= |s.commands|
      invariant FirstMatch(m, s.commands, e.text, pre, 0) == FirstMatch(m, s.commands, e.text, pre, i)
    {
      var cmd := s.commands[i];
      var textMatch := m(cmd, e.text);
      var isAttachmentMatch := pre.Some? && m(cmd, pre.value).matched;
      if textMatch.matched {
        return Execute(i, cmd.handler, textMatch.params, Text);
      } else if isAttachmentMatch {
        return Execute(i, cmd.handler, m(cmd, pre.value).params, Pretext);
      }
      i := i + 1;
    }
    if s.defaultMessageHandler.Some? {
      return RunDefault(s.defaultMessageHandler.value, map[]);
    }
    return Dropped;
  }

  /** Registration order decides precedence: of two matching commands the
      later one is never executed. */
  lemma EarlierCommandShadowsLater(m: Matcher, s: Slacker, e: MessageEvent, i: nat, j: nat)
    requires i < j < |s.commands|
    requires CommandMatches(m, s.commands[i], e.text, FirstPretext(e))
    ensures HandleMessage(m, s, e).Execute?
    ensures HandleMessage(m, s, e).index <= i
    ensures HandleMessage(m, s, e).index != j
  {
  }

  /** Registering another command never changes which command a message
      that already matched runs, nor with which parameters. */
  lemma RegisteringKeepsWinner(m: Matcher, s: Slacker, e: MessageEvent, usage: string, description: string, h: Handler)
    requires HandleMessage(m, s, e).Execute?
    ensures HandleMessage(m, Command(s, usage, description, h), e) == HandleMessage(m, s, e)
  {
  }

  /** Once help is prepended, a message the help command accepts always runs
      the help handler, whatever else is registered. */
  lemma HelpMatchedFirst(m: Matcher, s: Slacker, e: MessageEvent)
    requires CommandMatches(m, HelpEntry(PrependHelpHandle(s).helpHandler.value), e.text, FirstPretext(e))
    ensures var r := HandleMessage(m, PrependHelpHandle(s), e);
      r.Execute? && r.index == 0 && r.handler == PrependHelpHandle(s).helpHandler.value
  {
  }

  /** `handleMessage` as written: on the first command tried it reads the
      first attachment's pretext without checking that there is one. */
  function HandleMessageAsWritten(m: Matcher, s: Slacker, e: MessageEvent): (r: Eval<Execution>)
  {
    if |s.commands| > 0 && |e.attachments| == 0 then IndexOutOfRange
    else Value(HandleMessageAsWrittenFrom(m, s, e, 0))
  }

  /** The source loop from index `i`, reading the pretext unguarded. */
  function HandleMessageAsWrittenFrom(m: Matcher, s: Slacker, e: MessageEvent, i: nat): Execution
    requires i <= |s.commands|
    requires |s.commands| > 0 ==> |e.attachments| > 0
    decreases |s.commands| - i
  {
    if i == |s.commands| then
      match s.defaultMessageHandler
      case Some(h) => RunDefault(h, map[])
      case None => Dropped
    else
      var cmd := s.commands[i];
      var textMatch := m(cmd, e.text);
      var attachmentMatch := m(cmd, e.attachments[0].pretext);
      if textMatch.matched then Execute(i, cmd.handler, textMatch.params, Text)
      else if attachmentMatch.matched then Execute(i, cmd.handler, attachmentMatch.params, Pretext)
      else HandleMessageAsWrittenFrom(m, s, e, i + 1)
  }

  /** The discrepancy: after `prependHelpHandle` there is always a command,
      so `handleMessage` as written faults on every message without an
      attachment, whatever the matcher. Such a message only gets past the
      filter as written when its text mentions the bot. */
  lemma HandleMessageAsWrittenFaults(m: Matcher, s: Slacker, e: MessageEvent)
    requires |e.attachments| == 0
    ensures HandleMessageAsWritten(m, PrependHelpHandle(s), e) == IndexOutOfRange
  {
  }

  /** A channel message "<@U0BOT> help" without attachments passes the
      mention check as written, and then faults in `handleMessage`. */
  lemma MentionedMessageFaultsInDispatch(m: Matcher, s: Slacker)
    ensures var e := MessageEvent("<@U0BOT> help", "C024BE91L", "U2147483697", "", []);
      && IsBotMentionedAsWritten(e, "U0BOT") == Value(true)
      && HandleMessageAsWritten(m, PrependHelpHandle(s), e) == IndexOutOfRange
  {
  }

  /** Wherever the code as written does not fault it agrees with `HandleMessage`. */
  lemma HandleMessageAsWrittenAgrees(m: Matcher, s: Slacker, e: MessageEvent)
    requires |e.attachments| > 0
    ensures HandleMessageAsWritten(m, s, e) == Value(HandleMessage(m, s, e))
  {
    AsWrittenAgreesFrom(m, s, e, 0);
  }

  /** The loop as written and the search agree from every starting index. */
  lemma {:induction false} AsWrittenAgreesFrom(m: Matcher, s: Slacker, e: MessageEvent, i: nat)
    requires i <= |s.commands| && |e.attachments| > 0
    ensures HandleMessageAsWrittenFrom(m, s, e, i) == HandleMessageFromIndex(m, s, e, i)
    decreases |s.commands| - i
  {
    if i < |s.commands| {
      AsWrittenAgreesFrom(m, s, e, i + 1);
    }
  }

  /** The decision of `handleMessage` when the search starts at index `i`:
      the first match from there, else the default handler, else nothing. */
  function HandleMessageFromIndex(m: Matcher, s: Slacker, e: MessageEvent, i: nat): Execution
    requires i <= |s.commands|
  {
    match FirstMatch(m, s.commands, e.text, FirstPretext(e), i)
    case Some(j) => ExecuteCommand(m, s.commands, j, e.text, FirstPretext(e))
    case None =>
      match s.defaultMessageHandler
      case Some(h) => RunDefault(h, map[])
      case None => Dropped
  }
}

=== FILE: help.dfy ===
/** The built-in help renderer (`defaultHelp`): one line per command, in
    registry order, literals in bold, parameters as inline code, then a dash
    and the italic description. */
module HelpText {
  import opened Bot

  /** One token and the space after it. */
  function RenderToken(t: Token): string {
    if t.isParameter then "`" + t.word + "`" + " " else "*" + t.word + "*" + " "
  }

  /** The tokens of one usage pattern, in order. */
  function RenderTokens(ts: seq<Token>): string
    decreases |ts|
  {
    if |ts| == 0 then "" else RenderToken(ts[0]) + RenderTokens(ts[1..])
  }

  /** A command's help line without its terminating newline. */
  function LineBody(tokenize: Tokenizer, cmd: BotCommand): string {
    RenderTokens(tokenize(cmd)) + "-" + " " + "_" + cmd.description + "_"
  }

  /** The whole help message: every command's line, each ended by a newline. */
  function HelpMessage(tokenize: Tokenizer, cmds: seq<BotCommand>): string
    decreases |cmds|
  {
    if |cmds| == 0 then "" else LineBody(tokenize, cmds[0]) + "\n" + HelpMessage(tokenize, cmds[1..])
  }

  /** Rendering distributes over concatenation of token sequences. */
  lemma {:induction false} RenderTokensAppend(a: seq<Token>, b: seq<Token>)
    ensures RenderTokens(a + b) == RenderTokens(a) + RenderTokens(b)
    decreases |a|
  {
    if |a| == 0 {
      assert a + b == b;
    } else {
      assert (a + b)[0] == a[0] && (a + b)[1..] == a[1..] + b;
      RenderTokensAppend(a[1..], b);
    }
  }

  /** The help message of a concatenation is the concatenation of the help messages. */
  lemma {:induction false} HelpAppend(tokenize: Tokenizer, a: seq<BotCommand>, b: seq<BotCommand>)
    ensures HelpMessage(tokenize, a + b) == HelpMessage(tokenize, a) + HelpMessage(tokenize, b)
    decreases |a|
  {
    if |a| == 0 {
      assert a + b == b;
    } else {
      assert (a + b)[0] == a[0] && (a + b)[1..] == a[1..] + b;
      HelpAppend(tokenize, a[1..], b);
    }
  }

  /** The inner loop of `defaultHelp`: render each token of one command. */
  method RenderTokensLoop(tokens: seq<Token>) returns (line: string)
    ensures line == RenderTokens(tokens)
  {
    line := "";
    for k := 0 to |tokens|
      invariant line == RenderTokens(tokens[..k])
    {
      RenderTokensAppend(tokens[..k], [tokens[k]]);
      assert tokens[..k + 1] == tokens[..k] + [tokens[k]];
      line := line + RenderToken(tokens[k]);
    }
    assert tokens[..|tokens|] == tokens;
  }

  /** `defaultHelp` as the source builds it: an outer loop over commands,
      appending each command's tokens and then its description line. */
  method DefaultHelp(tokenize: Tokenizer, cmds: seq<BotCommand>) returns (help: string)
    ensures help == HelpMessage(tokenize, cmds)
  {
    help := "";
    for i := 0 to |cmds|
      invariant help == HelpMessage(tokenize, cmds[..i])
    {
      var line := RenderTokensLoop(tokenize(cmds[i]));
      var body := line + "-" + " " + "_" + cmds[i].description + "_";
      assert body == LineBody(tokenize, cmds[i]);
      HelpSnoc(tokenize, cmds, i);
      help := help + body + "\n";
    }
    assert cmds[..|cmds|] == cmds;
  }

  /** One more command adds its line at the end of the help message. */
  lemma HelpSnoc(tokenize: Tokenizer, cmds: seq<BotCommand>, i: nat)
    requires i < |cmds|
    ensures HelpMessage(tokenize, cmds[..i + 1]) == HelpMessage(tokenize, cmds[..i]) + LineBody(tokenize, cmds[i]) + "\n"
  {
    assert cmds[..i + 1] == cmds[..i] + [cmds[i]];
    HelpAppend(tokenize, cmds[..i], [cmds[i]]);
    assert [cmds[i]][1..] == [];
  }

  /** Number of occurrences of `c` in `s`. */
  function CountChar(s: string, c: char): nat
    decreases |s|
  {
    if |s| == 0 then 0 else (if s[0] == c then 1 else 0) + CountChar(s[1..], c)
  }

  lemma {:induction false} CountCharAppend(a: string, b: string, c: char)
    ensures CountChar(a + b, c) == CountChar(a, c) + CountChar(b, c)
    decreases |a|
  {
    if |a| == 0 {
      assert a + b == b;
    } else {
      assert (a + b)[0] == a[0] && (a + b)[1..] == a[1..] + b;
      CountCharAppend(a[1..], b, c);
    }
  }

  /** No newline in any token word or in the description of a command. */
  predicate SingleLine(tokenize: Tokenizer, cmd: BotCommand) {
    && '\n' !in cmd.description
    && forall t :: t in tokenize(cmd) ==> '\n' !in t.word
  }

  lemma {:induction false} NoNewlineNoCount(s: string)
    requires '\n' !in s
    ensures CountChar(s, '\n') == 0
    decreases |s|
  {
    if |s| > 0 {
      assert s[0] in s;
      assert forall c :: c in s[1..] ==> c in s;
      NoNewlineNoCount(s[1..]);
    }
  }

  /** A single-line command's body contains no newline. */
  lemma {:induction false} LineBodyHasNoNewline(tokenize: Tokenizer, cmd: BotCommand)
    requires SingleLine(tokenize, cmd)
    ensures '\n' !in LineBody(tokenize, cmd)
  {
    RenderTokensNoNewline(tokenize(cmd));
  }

  lemma {:induction false} RenderTokensNoNewline(ts: seq<Token>)
    requires forall t :: t in ts ==> '\n' !in t.word
    ensures '\n' !in RenderTokens(ts)
    decreases |ts|
  {
    if |ts| > 0 {
      assert ts[0] in ts;
      assert forall t :: t in ts[1..] ==> t in ts;
      RenderTokensNoNewline(ts[1..]);
    }
  }

  /** With single-line words and descriptions, the help message has exactly
      one newline per command. */
  lemma {:induction false} HelpLineCount(tokenize: Tokenizer, cmds: seq<BotCommand>)
    requires forall i :: 0 <= i < |cmds| ==> SingleLine(tokenize, cmds[i])
    ensures CountChar(HelpMessage(tokenize, cmds), '\n') == |cmds|
    decreases |cmds|
  {
    if |cmds| > 0 {
      var body := LineBody(tokenize, cmds[0]);
      LineBodyHasNoNewline(tokenize, cmds[0]);
      NoNewlineNoCount(body);
      HelpLineCount(tokenize, cmds[1..]);
      CountCharAppend(body + "\n", HelpMessage(tokenize, cmds[1..]), '\n');
      CountCharAppend(body, "\n", '\n');
    }
  }

  /** Cuts a string into its newline-terminated lines; an unterminated tail
      becomes a last line of its own. */
  function Lines(s: string): seq<string>
    decreases |s|
  {
    if |s| == 0 then []
    else
      var n := FirstNewline(s, 0);
      if n == |s| then [s] else [s[..n]] + Lines(s[n + 1..])
  }

  /** The index of the first newline at or after `i`, or `|s|` when there is none. */
  function FirstNewline(s: string, i: nat): (n: nat)
    requires i <= |s|
    ensures i <= n <= |s|
    ensures forall k :: i <= k < n ==> s[k] != '\n'
    ensures n < |s| ==> s[n] == '\n'
    decreases |s| - i
  {
    if i == |s| || s[i] == '\n' then i else FirstNewline(s, i + 1)
  }

  lemma LinesOfTerminated(a: string, rest: string)
    requires '\n' !in a
    ensures Lines(a + "\n" + rest) == [a] + Lines(rest)
  {
    var s := a + "\n" + rest;
    var n := FirstNewline(s, 0);
    assert s[|a|] == '\n';
    assert n == |a|;
    assert s[..n] == a;
    assert s[n + 1..] == rest;
  }

  /** Reading the help message back line by line gives each command's line,
      in registry order: the lines are exactly the commands, one each. */
  lemma {:induction false} HelpLines(tokenize: Tokenizer, cmds: seq<BotCommand>)
    requires forall i :: 0 <= i < |cmds| ==> SingleLine(tokenize, cmds[i])
    ensures |Lines(HelpMessage(tokenize, cmds))| == |cmds|
    ensures forall i :: 0 <= i < |cmds| ==> Lines(HelpMessage(tokenize, cmds))[i] == LineBody(tokenize, cmds[i])
    decreases |cmds|
  {
    if |cmds| > 0 {
      LineBodyHasNoNewline(tokenize, cmds[0]);
      LinesOfTerminated(LineBody(tokenize, cmds[0]), HelpMessage(tokenize, cmds[1..]));
      HelpLines(tokenize, cmds[1..]);
      var lines := Lines(HelpMessage(tokenize, cmds));
      assert lines == [LineBody(tokenize, cmds[0])] + Lines(HelpMessage(tokenize, cmds[1..]));
      forall i | 0 <= i < |cmds|
        ensures lines[i] == LineBody(tokenize, cmds[i])
      {
        if i > 0 {
          assert lines[i] == Lines(HelpMessage(tokenize, cmds[1..]))[i - 1];
          assert cmds[1..][i - 1] == cmds[i];
        }
      }
    }
  }

  /** `Listen` keeps its help prepend in the bot, so a second `Listen` on the
      same bot prepends help again: two help commands, whose lines both open
      the help message. */
  lemma {:induction false} RelistenStacksHelp(tokenize: Tokenizer, s: Slacker)
    ensures var r := PrependHelpHandle(PrependHelpHandle(s));
      var line := LineBody(tokenize, HelpEntry(r.helpHandler.value)) + "\n";
      && r.commands[0] == r.commands[1] == HelpEntry(r.helpHandler.value)
      && HelpMessage(tokenize, r.commands) == line + line + HelpMessage(tokenize, s.commands)
  {
  }

  /** Rendered after `prependHelpHandle`, the help message starts with the
      help command's own line and then lists the earlier registrations. */
  lemma HelpAfterPrepend(tokenize: Tokenizer, s: Slacker)
    ensures var r := PrependHelpHandle(s);
      HelpMessage(tokenize, r.commands)
        == LineBody(tokenize, HelpEntry(r.helpHandler.value)) + "\n" + HelpMessage(tokenize, s.commands)
  {
  }
}

=== FILE: listen.dfy ===
/** The event loop (`Listen`): help is prepended once, then each inbound
    event is classified in turn. A goroutine the source spawns becomes an
    `Action` in the trace; the loop's return value becomes `Exit.err`. */
module EventLoop {
  import opened Wrappers
  import opened Bot
  import opened Addressing
  import opened Dispatch

  /** The inbound events, by the type switch of the loop. */
  datatype Event =
    | Connected
    | Message(msg: MessageEvent)
    | RtmError(description: string)
    | InvalidAuth
    | Other(payload: string)

  /** A unit of work the loop hands off without waiting for it. */
  datatype Action =
    | SpawnInit(handler: Handler)
    | SpawnHandleMessage(msg: MessageEvent, run: Execution)
    | SpawnError(handler: Handler, description: string)
    | SpawnDefaultEvent(handler: Handler, payload: string)

  /** What one event does to the loop: hand off some work and go on, or return an error. */
  datatype Step = Continue(actions: seq<Action>) | Stop(err: string)

  /** The loop's hand-offs in order, and its return value (`None` is `nil`). */
  datatype Exit = Exit(trace: seq<Action>, err: Option<string>)

  /** The error text returned on an authentication failure. */
  const InvalidToken: string := "invalid token"

  /** One turn of the loop for event `e`, the bot's user id being `me`. */
  function StepEvent(m: Matcher, s: Slacker, me: string, e: Event): (r: Step)
    ensures r.Stop? <==> e.InvalidAuth?
    ensures r.Stop? ==> r.err == "invalid token"
    ensures r.Continue? ==> |r.actions| <= 1
    ensures e.Message? ==> r.Continue? && (|r.actions| == 1 <==> IsAddressed(e.msg, me))
    ensures e.Message? && r.Continue? && |r.actions| == 1 ==>
              r.actions[0] == SpawnHandleMessage(e.msg, HandleMessage(m, s, e.msg))
    ensures e.Connected? ==> r.Continue? && (|r.actions| == 1 <==> s.initHandler.Some?)
    ensures e.Connected? && r.Continue? && |r.actions| == 1 ==> r.actions[0] == SpawnInit(s.initHandler.value)
    ensures e.RtmError? ==> r.Continue? && (|r.actions| == 1 <==> s.errorHandler.Some?)
    ensures e.RtmError? && r.Continue? && |r.actions| == 1 ==>
              r.actions[0] == SpawnError(s.errorHandler.value, e.description)
    ensures e.Other? ==> r.Continue? && (|r.actions| == 1 <==> s.defaultEventHandler.Some?)
    ensures e.Other? && r.Continue? && |r.actions| == 1 ==>
              r.actions[0] == SpawnDefaultEvent(s.defaultEventHandler.value, e.payload)
  {
    match e
    case Connected =>
      if s.initHandler.None? then Continue([]) else Continue([SpawnInit(s.initHandler.value)])
    case Message(msg) =>
      if !IsAddressed(msg, me) then Continue([])
      else Continue([SpawnHandleMessage(msg, HandleMessage(m, s, msg))])
    case RtmError(d) =>
      if s.errorHandler.None? then Continue([]) else Continue([SpawnError(s.errorHandler.value, d)])
    case InvalidAuth =>
      Stop(InvalidToken)
    case Other(p) =>
      if s.defaultEventHandler.None? then Continue([]) else Continue([SpawnDefaultEvent(s.defaultEventHandler.value, p)])
  }

  /** The loop over a finite event stream, on an already prepared bot. */
  function Run(m: Matcher, s: Slacker, me: string, events: seq<Event>): Exit
    decreases |events|
  {
    if |events| == 0 then Exit([], None)
    else
      match StepEvent(m, s, me, events[0])
      case Stop(err) => Exit([], Some(err))
      case Continue(acts) =>
        var rest := Run(m, s, me, events[1..]);
        Exit(acts + rest.trace, rest.err)
  }

  /** `Listen`: prepend help, then run the loop. */
  function Listen(m: Matcher, s: Slacker, me: string, events: seq<Event>): Exit {
    Run(m, PrependHelpHandle(s), me, events)
  }

  /** `Listen` as the source's loop: one pass over the stream, returning
      on the first authentication failure and `nil` at its end. The help
      prepend changes the bot in place, so the prepared bot is returned too. */
  method ListenLoop(m: Matcher, s: Slacker, me: string, events: seq<Event>)
    returns (bot: Slacker, trace: seq<Action>, err: Option<string>)
    ensures Exit(trace, err) == Listen(m, s, me, events)
    ensures |bot.commands| == |s.commands| + 1 && bot.commands[1..] == s.commands
    ensures bot.helpHandler.Some? && bot.commands[0] == HelpEntry(bot.helpHandler.value)
    ensures s.helpHandler.Some? ==> bot.helpHandler == s.helpHandler
  {
    bot := PrependHelpHandle(s);
    trace := [];
    var i := 0;
    assert events[0..] == events;
    while i < |events|
      invariant 0 <= i <= |events|
      invariant Run(m, bot, me, events) == After(trace, Run(m, bot, me, events[i..]))
    {
      var step := StepEvent(m, bot, me, events[i]);
      RunFrom(m, bot, me, events, i);
      if step.Stop? {
        return bot, trace, Some(step.err);
      }
      AfterAppend(trace, step.actions, Run(m, bot, me, events[i + 1..]));
      trace := trace + step.actions;
      i := i + 1;
    }
    assert events[i..] == [];
    return bot, trace, None;
  }

  /** The loop's result once `done` has already been handed off. */
  function After(done: seq<Action>, x: Exit): Exit {
    Exit(done + x.trace, x.err)
  }

  lemma AfterAppend(done: seq<Action>, acts: seq<Action>, x: Exit)
    ensures After(done, Exit(acts + x.trace, x.err)) == After(done + acts, x)
  {
    assert done + (acts + x.trace) == (done + acts) + x.trace;
  }

  /** The loop from position `i` is one step followed by the loop from `i + 1`. */
  lemma RunFrom(m: Matcher, s: Slacker, me: string, events: seq<Event>, i: nat)
    requires i < |events|
    ensures var step, rest := StepEvent(m, s, me, events[i]), Run(m, s, me, events[i + 1..]);
      Run(m, s, me, events[i..])
        == if step.Stop? then Exit([], Some(step.err)) else Exit(step.actions + rest.trace, rest.err)
  {
    assert events[i..][0] == events[i] && events[i..][1..] == events[i + 1..];
  }

  /** The loop returns an error exactly when the stream holds an
      authentication failure, and that error is "invalid token"; otherwise it returns nil. */
  lemma {:induction false} RunErrorIffInvalidAuth(m: Matcher, s: Slacker, me: string, events: seq<Event>)
    ensures Run(m, s, me, events).err.Some? <==> InvalidAuth in events
    ensures Run(m, s, me, events).err.Some? ==> Run(m, s, me, events).err.value == "invalid token"
    decreases |events|
  {
    if |events| > 0 {
      assert events == [events[0]] + events[1..];
      RunErrorIffInvalidAuth(m, s, me, events[1..]);
    }
  }

  /** A stream without authentication failures can be split anywhere: the
      trace is the two halves' traces in order. */
  lemma {:induction false} RunAppend(m: Matcher, s: Slacker, me: string, a: seq<Event>, b: seq<Event>)
    requires InvalidAuth !in a
    ensures Run(m, s, me, a + b) == Exit(Run(m, s, me, a).trace + Run(m, s, me, b).trace, Run(m, s, me, b).err)
    decreases |a|
  {
    if |a| == 0 {
      assert a + b == b;
    } else {
      assert a == [a[0]] + a[1..];
      assert (a + b)[0] == a[0] && (a + b)[1..] == a[1..] + b;
      RunAppend(m, s, me, a[1..], b);
      var acts := StepEvent(m, s, me, a[0]).actions;
      var tail, rb := Run(m, s, me, a[1..]), Run(m, s, me, b);
      calc {
        Run(m, s, me, a + b);
        Exit(acts + Run(m, s, me, a[1..] + b).trace, Run(m, s, me, a[1..] + b).err);
        Exit(acts + (tail.trace + rb.trace), rb.err);
        { assert acts + (tail.trace + rb.trace) == (acts + tail.trace) + rb.trace; }
        Exit(Run(m, s, me, a).trace + rb.trace, rb.err);
      }
    }
  }

  /** Nothing after an authentication failure is looked at: extending the
      stream past it changes neither the trace nor the error. */
  lemma {:induction false} RunStopsAtInvalidAuth(m: Matcher, s: Slacker, me: string, a: seq<Event>, b: seq<Event>)
    requires InvalidAuth in a
    ensures Run(m, s, me, a + b) == Run(m, s, me, a)
    decreases |a|
  {
    assert (a + b)[0] == a[0];
    if a[0] != InvalidAuth {
      assert (a + b)[1..] == a[1..] + b;
      RunStopsAtInvalidAuth(m, s, me, a[1..], b);
    }
  }

  /** A message the filter rejects reaches no handler: removing it from the
      stream leaves the loop's result unchanged. */
  lemma {:induction false} UnaddressedMessageIgnored(m: Matcher, s: Slacker, me: string, a: seq<Event>, msg: MessageEvent, b: seq<Event>)
    requires !IsAddressed(msg, me)
    ensures Run(m, s, me, a + [Message(msg)] + b) == Run(m, s, me, a + b)
    decreases |a|
  {
    if |a| == 0 {
      assert a + [Message(msg)] + b == [Message(msg)] + b;
      assert ([Message(msg)] + b)[1..] == b;
      assert a + b == b;
    } else {
      assert (a + [Message(msg)] + b)[0] == a[0] && (a + [Message(msg)] + b)[1..] == a[1..] + [Message(msg)] + b;
      assert (a + b)[0] == a[0] && (a + b)[1..] == a[1..] + b;
      UnaddressedMessageIgnored(m, s, me, a[1..], msg, b);
    }
  }

  /** A hand-off of message `a.msg` passed the addressing filter and carries
      what `handleMessage` decides for it on bot `s`. */
  predicate SoundDispatch(m: Matcher, s: Slacker, me: string, a: Action) {
    a.SpawnHandleMessage? ==>
      IsAddressed(a.msg, me) && a.run == HandleMessage(m, s, a.msg)
  }

  /** Every message the loop hands off passed the addressing filter, and its
      dispatch is what `handleMessage` decides for it on the prepared bot. */
  lemma {:induction false} DispatchedMessagesAreAddressed(m: Matcher, s: Slacker, me: string, events: seq<Event>)
    ensures forall a :: a in Run(m, s, me, events).trace ==> SoundDispatch(m, s, me, a)
    decreases |events|
  {
    if |events| > 0 {
      DispatchedMessagesAreAddressed(m, s, me, events[1..]);
      var step := StepEvent(m, s, me, events[0]);
      if step.Continue? {
        assert Run(m, s, me, events).trace == step.actions + Run(m, s, me, events[1..]).trace;
        assert forall a :: a in step.actions ==> SoundDispatch(m, s, me, a);
      }
    }
  }

  /** The `isFromBot` check is not applied: a direct message written by the
      bot itself is still handed to `handleMessage`. */
  lemma OwnDirectMessageDispatched(m: Matcher, s: Slacker, me: string, msg: MessageEvent)
    requires msg.user == me && |msg.channel| > 0 && msg.channel[0] == 'D'
    ensures IsFromBot(msg, me)
    ensures Listen(m, s, me, [Message(msg)]).trace
              == [SpawnHandleMessage(msg, HandleMessage(m, PrependHelpHandle(s), msg))]
  {
    var bot := PrependHelpHandle(s);
    assert IsDirectMessage(msg);
    assert StepEvent(m, bot, me, Message(msg)).actions == [SpawnHandleMessage(msg, HandleMessage(m, bot, msg))];
    assert [Message(msg)][1..] == [];
    assert Run(m, bot, me, []) == Exit([], None);
    assert Run(m, bot, me, [Message(msg)]).trace == StepEvent(m, bot, me, Message(msg)).actions + [];
  }
}

=== FILE: strings.dfy ===
/** The two string primitives the dispatcher relies on: substring search
    (`strings.Contains`) and prefix test (`strings.HasPrefix`). */
module Strings {

  /** `sub` occurs in `s` starting at position `i`. */
  ghost predicate OccursAt(s: string, sub: string, i: int) {
    0 <= i && i + |sub| <= |s| && s[i..i + |sub|] == sub
  }

  /** `sub` occurs somewhere in `s`: the reference meaning of `Contains`. */
  ghost predicate Occurs(s: string, sub: string) {
    exists i :: OccursAt(s, sub, i)
  }

  /** Substring search, scanning `s` from the left. */
  function Contains(s: string, sub: string): bool
    decreases |s|
  {
    if |sub| > |s| then false
    else if s[..|sub|] == sub then true
    else Contains(s[1..], sub)
  }

  /** The scan finds `sub` exactly when it occurs at some position. */
  lemma {:induction false} ContainsIsOccurs(s: string, sub: string)
    ensures Contains(s, sub) <==> Occurs(s, sub)
    decreases |s|
  {
    if |sub| > |s| {
      // no position leaves room for `sub`
    } else if s[..|sub|] == sub {
      assert OccursAt(s, sub, 0);
    } else {
      ContainsIsOccurs(s[1..], sub);
      if Contains(s[1..], sub) {
        var i :| OccursAt(s[1..], sub, i);
        assert s[1..][i..i + |sub|] == s[i + 1..i + 1 + |sub|];
        assert OccursAt(s, sub, i + 1);
      } else if Occurs(s, sub) {
        var i :| OccursAt(s, sub, i);
        assert i != 0;
        assert s[1..][i - 1..i - 1 + |sub|] == s[i..i + |sub|];
        assert OccursAt(s[1..], sub, i - 1);
        assert false;
      }
    }
  }

  /** `s` starts with `prefix`. */
  function HasPrefix(s: string, prefix: string): (r: bool)
    ensures r <==> exists rest :: s == prefix + rest
  {
    if |prefix| <= |s| && s[..|prefix|] == prefix then
      assert s == prefix + s[|prefix|..];
      true
    else
      false
  }
}

=== FILE: wrappers.dfy ===
/** Shared wrappers: an optional value and a possibly faulting evaluation. */
module Wrappers {

  /** An optional value: a handler that may be unset, a pretext that may be absent. */
  datatype Option<+T> = None | Some(value: T) {

    /** The wrapped value, or `default` when there is none. */
    function GetOr(default: T): T {
      match this
      case Some(v) => v
      case None => default
    }
  }

  /** The outcome of evaluating an expression that may fault at run time
      the way an out-of-range slice index does in Go. */
  datatype Eval<+T> = Value(value: T) | IndexOutOfRange
}
